=== FILE: README.md ===
# Website Time Cost — a Dafny model of its time accounting

Website Time Cost is a browser extension. A content script in every tab counts
the seconds the page is visible and focused. It batches them and sends them to
a background worker. The background worker keeps three maps in extension
storage:

- `usageByDay`: day key → domain → milliseconds;
- `totalMsByDomain`: domain → lifetime milliseconds;
- `disabledDomains`: the domains whose on-page overlay is hidden.

The overlay shows the lifetime total, formatted as "1y 2d 3h 4m 5s".

This project models the pure logic of both sides as immutable values and total
functions:

- `domain.dfy` (module `Domain`): the two `normalizeDomain` functions. The
  background's strips a lower-case `www.` and lowercases. The content script's
  strips `www.` in any case.
- `jsobject.dfy` (module `JsObject`): the generic `ensure(obj, path, defVal)`
  helper, over a JSON-like value tree.
- `store.dfy` (module `UsageStore`): the store as a value `Store(usageByDay,
  totalMsByDomain, disabledDomains)`, with `incrementTime`, `getSummary` and
  the toggle. It also holds the invariant "each lifetime total is the sum of
  that domain's days". A refinement lemma shows that the typed cell update is
  exactly `ensure` run on the stored JSON shape
  `{day: {domains: {domain: {ms}}}}`.
- `background.dfy` (module `Background`): the runtime message listener and the
  toolbar button.
- `tracker.dfy` (module `Tracker`): the content script's one-second tick as a
  pure `Step(state, now, visible)`. It also covers `startTracking`'s guard,
  `init`, and the visibility-change listener.
- `duration.dfy` (module `Duration`): `formatDuration`, with a parser for its
  output that serves as the inverse.
- `ascii.dfy` and `wrappers.dfy`: ASCII lowercasing and an `Option` type.

The environment is passed in as parameters:

- the day key (`DAY_KEY()`, an ISO/UTC date) is an opaque string;
- the tick time `now` (`Date.now()`) is an integer;
- "visible and focused" (`document.visibilityState === 'visible' &&
  document.hasFocus()`) is a boolean;
- `new URL(s).hostname` is a function `UrlHostname = string -> Option<string>`,
  with None when the constructor throws.

Every operation returns the new store or tracker state instead of writing it.

## Model

| member | source | states |
|---|---|---|
| Domain.NormalizeHost | background.js:10 | Lowercasing the host gives the optional stripped `www.` followed by the result. So exactly one leading lower-case `www.` is removed, the rest is lowercased, and the result has no upper-case letter |
| Domain.NormalizeDomain | background.js:7-14 | Input with no "/" takes the bare-host path. Input with "/" uses the URL's hostname. If the URL constructor throws, the catch branch normalizes the raw string. The result is always lower-case |
| Domain.NormalizeLowercaseHost | background.js:10 | On a key with no upper-case letter, normalization removes a leading `www.` and otherwise leaves the key as it is, so a normalized key is changed by a second normalization only when it still starts with `www.` |
| Domain.NormalizeHostStrips | background.js:10 | `www.` + rest normalizes to the lowercased rest |
| Domain.UppercaseWwwSurvives | background.js:10 | An upper-case `WWW.` prefix is not stripped by the background. It survives as `www.` after lowercasing |
| Domain.StripsOnlyOnePrefix | background.js:10 | Only one `www.` is removed: `www.www.x` becomes `www.` + lower(x) |
| Domain.BackgroundNormalizeExamples | background.js:9-10 | `www.Example.com` and `example.com` get the same background key, `example.com` |
| Domain.ContentNormalize | contentScript.js:176-178 | The result is lower-case. It is four characters shorter exactly when the host starts with `www.` in any case |
| Domain.ContentNormalizeStrips | contentScript.js:177 | Any-case `www.` + rest normalizes to the lowercased rest |
| Domain.ContentIsBackgroundOfLowered | contentScript.js:176-178 | The content script's normalization equals the background's bare-host normalization applied to the lowercased host |
| Domain.BackgroundKeepsContentKey | contentScript.js:176-178 | The background leaves a key sent by the content script unchanged, unless that key still starts with `www.` |
| Domain.ContentNormalizeExamples | contentScript.js:176-178 | `www.Example.com` and `WWW.example.com` both become `example.com` |
| JsObject.Ensure | background.js:24-35 | Afterwards the path leads to the returned leaf. An existing leaf is never overwritten: the object comes back unchanged. A missing leaf gets the default. Intermediate levels that are missing or not objects are created. The top level gains only the path's first key, and its other keys keep their values |
| JsObject.EnsureAddsOnlyPath | background.js:27-33 | At any depth, a path that is neither a level on the way to the ensured path nor below its leaf looks up the same value, or the same absence, afterwards. So only the keys on the path are created |
| JsObject.EnsureKeepsOtherPaths | background.js:27-33 | Every value reachable by a path that is not a prefix of the ensured path is still there, unchanged, at any depth: existing object levels are reused, so their other keys survive |
| UsageStore.EnsureCell | background.js:44 | The day and the cell exist afterwards. The cell holds its previous value, or 0 if it was absent. An existing cell leaves the map unchanged, and no other day or cell changes |
| UsageStore.EnsureCellMatchesEnsure | background.js:44 | On the stored JSON shape with path `[day, "domains", domain]` and default `{ms: 0}`, the generic `ensure` gives the encoding of `EnsureCell` and returns the cell's prior value (or 0) |
| UsageStore.IncrementTime | background.js:37-56 | The new today value is the prior cell (0 if absent) plus the delta. The new lifetime value is the prior total (0 if absent) plus the delta. Both are stored and returned. Every other day, every other cell of that day, every other total and the disabled set are unchanged |
| UsageStore.GetSummary | background.js:58-75 | Returns today's cell, the lifetime total and the disabled flag for the normalized domain. These default to 0, 0 and false when absent. It returns a value and writes nothing |
| UsageStore.ToggleKey | background.js:91-92 | The key's membership in `disabledDomains` flips. Every other key's membership and both usage maps are unchanged |
| UsageStore.ToggleDomain | background.js:88-93 | The normalized domain's disabled membership flips, and nothing else changes |
| UsageStore.ToggleTwiceRestores | background.js:91-92 | Toggling the same domain twice gives back the original store |
| UsageStore.SummaryAfterIncrement | background.js:81-83 | The summary read after an increment reports the increment's returned today and lifetime values. The disabled flag is unchanged |
| UsageStore.IncrementLeavesOtherSummaries | background.js:44-47 | An increment changes no other domain's summary. It also leaves the domain's cell on every other day unchanged |
| UsageStore.IncrementPreservesConsistency | background.js:44-47 | If every lifetime total equals the sum of its domain's cells over all days before an increment, it still does afterwards |
| UsageStore.EmptyStoreConsistent | background.js:41-42 | The empty store (every map read as `{}`) satisfies the sum-over-days invariant |
| UsageStore.RecordAllTotals | background.js:37-56 | After any sequence of increments for one domain, its lifetime total has grown by the sum of the deltas, and the invariant still holds |
| UsageStore.FromEmptyLifetimeIsSumOfDeltas | background.js:41-47 | Starting from an empty store, the lifetime total equals the sum of the submitted deltas, and so does the sum of that domain's days |
| UsageStore.SameDomainExample | background.js:37-56 | 3000 ms then 2000 ms for `example.com` gives 5000/5000. Another 1000 ms for `www.Example.com` on the same day gives 6000/6000 |
| Background.DeltaOrZero | background.js:81 | A missing `deltaMs` counts as 0. A present one is used as is |
| Background.MissingDeltaKeepsNumbers | background.js:81-83 | An `incrementTime` message without `deltaMs` returns today and lifetime values equal to the prior ones. Its summary equals the prior summary |
| Background.IncrementResponseAgrees | background.js:80-83 | The summary sent back with an increment agrees with the increment's returned values |
| Background.HandleMessage | background.js:77-99 | An increment message (missing delta = 0) applies the increment. It replies with the prior cell and total plus the delta, and a summary that agrees with them; both carry the current day. A summary request changes nothing and replies with the summary. A toggle flips the normalized domain and leaves the usage maps alone. Its reply is read after a second normalization. For a normalized key containing no "/", the reply is the new disabled state when the key has no `www.`. When the key still starts with `www.`, the reply is the unchanged state of the key without that prefix. In both cases the whole reply, times included, is the summary of the key after that second normalization. Any other message changes nothing and gets no reply |
| Background.HandleMessageCorrected | background.js:77-99 | The listener with the corrected toggle reply: the same store as the listener as written for every message and the same reply for every non-toggle message. A toggle's reply says disabled exactly when the normalized domain was not disabled before, and it equals what `getSummary` of the same raw domain now reports |
| Background.HandleMessagePreservesConsistency | background.js:77-99 | No message breaks "lifetime total = sum over days" |
| Background.ToggleMessageTwiceRestores | background.js:87-95 | Two `toggleDomain` messages for the same domain restore the store |
| Background.HandleToggleAsWritten | background.js:87-95 | As written: the store is the toggle of the normalized domain. For a normalized key without `www.` the reply says disabled exactly when the key was not disabled before. For a key still starting with `www.` the reply instead reports whether the key without that prefix, which the toggle did not touch, is disabled. For any key without "/", the whole reply, today's and lifetime milliseconds included, is the summary of the key after a second normalization, read from the toggled store |
| Background.ToggleAsWrittenMisreports | background.js:88-94 | For `www.www.a.com` on an empty store, the reply says "not disabled", but a later `getSummary` for the same raw domain says "disabled"; the listener as written gives that same wrong reply |
| Background.HandleToggle | background.js:87-95 | Corrected: the reply's `disabled` is the flipped membership. It equals what `getSummary` of the same raw domain now reports |
| Background.OnToolbarClick | background.js:102-117 | With no tab, a missing or zero id, or a missing or empty URL, nothing happens. Otherwise the URL's normalized domain flips in the disabled set, nothing else changes, and that tab is notified |
| Background.ToolbarTwiceRestores | background.js:105-110 | Two toolbar clicks on the same tab restore the store |
| Tracker.CapDelta | contentScript.js:42 | A delta above 5000 becomes 1000. Any other delta is kept, so a counted delta is never above 5000 |
| Tracker.Counted | contentScript.js:33-42 | A hidden or unfocused tick counts nothing, and no tick counts more than 5000 |
| Tracker.Optimistic | contentScript.js:46-49 | The same delta is added to `todayMs` and to `lifetimeMs`, and only when a summary exists. The day and disabled fields are kept |
| Tracker.Step | contentScript.js:32-63 | Every tick sets `lastTick` to `now`. A hidden tick changes nothing else and pushes nothing. For a visible tick, the push plus the new accumulator equals the old accumulator plus the capped delta, and the summary gets the optimistic update. A push is at least 5000 and resets the accumulator to 0. An accumulator below 5000 stays below 5000, and any push from it is below 10000 |
| Tracker.ClockBackwardsShrinksAccumulator | contentScript.js:34-44 | A visible tick earlier than the last one yields a negative delta. The cap lets it through, so it shrinks the accumulator |
| Tracker.RunAccounting | contentScript.js:32-63 | Over any sequence of ticks, pushes plus the final accumulator equal the starting accumulator plus the total counted time. The summary grows by that same total. The clock ends at the last tick, and each push lies in [5000, 10000) |
| Tracker.RunFromLoad | contentScript.js:5-10 | From the state at script load, with no summary yet, the pushes plus the final accumulator equal the total counted time of the ticks, the accumulator stays below 5000, and no summary appears |
| Tracker.StartTracking | contentScript.js:28-30 | The first call sets the flag and installs the timer. Later calls change nothing |
| Tracker.StartTrackingIdempotent | contentScript.js:28-30 | A second `startTracking` returns the same state and installs no timer |
| Tracker.AdoptSummary | contentScript.js:57-61 | A reply replaces the summary. A failed or empty reply keeps the old one. Nothing else changes |
| Tracker.Init | contentScript.js:17-26 | The first reply (None if it failed) becomes the summary. Tracking starts unless that summary says the domain is disabled |
| Tracker.OnVisibilityChanged | contentScript.js:195-204 | A failed refresh changes nothing and starts nothing. A reply's summary is adopted, and an empty reply keeps the held one. Tracking then runs exactly when it already ran or the resulting summary is not disabled, and a timer is installed only if tracking had not started. Tracking that already started is never stopped |
| Tracker.DisabledDomainNeverTracks | contentScript.js:16-26 | If init's reply and every refresh report the domain as disabled, or the refresh failed, tracking never starts, in any order of arrival. contentScript.js:195-204 is the other half of this |
| Tracker.TrackingNeverStops | contentScript.js:195-204 | Once tracking has started, no later init reply or refresh stops it |
| Duration.TotalSeconds | contentScript.js:138 | Whole seconds: 0 below one second (negative input included), otherwise the largest t with t*1000 <= ms |
| Duration.Decompose | contentScript.js:139-148 | y*31536000 + d*86400 + h*3600 + m*60 + s equals the seconds, with d < 365, h < 24, m < 60 and s < 60 |
| Duration.DecomposeUnique | contentScript.js:139-148 | Every in-range split is the one Decompose gives, so Decompose inverts the seconds sum |
| Duration.FirstShown | contentScript.js:159-160 | The index is the first non-zero unit among y/d/h/m, or the seconds index when all four are zero |
| Duration.Shown | contentScript.js:150-162 | The printed units are a suffix of y, d, h, m, s in that order and end with seconds. The first is non-zero unless seconds alone remain. Together they stand for exactly the whole seconds of the input, and every unit below years is in range: days below 365, hours below 24, minutes and seconds below 60 |
| Duration.ParseJoin | contentScript.js:162 | Joining rendered units with spaces and parsing the text back gives the same units |
| Duration.FormatDuration | contentScript.js:137-163 | The formatted text parses back to exactly the units of `Shown` for the same input: the suffix of y, d, h, m, s starting at the first non-zero unit, with every unit below years in range. So the printed text loses nothing |
| Duration.NatToString | contentScript.js:162 | A printed value is a non-empty run of decimal digits with no leading zero, as a JavaScript number prints |
| Duration.FormatParseRoundTrip | contentScript.js:137-163 | The units read back from the formatted text are worth exactly the input's whole seconds |
| Duration.DigitsCanonical | contentScript.js:162 | A digit string without a leading zero is exactly how its value prints |
| Duration.ParsePartExact | contentScript.js:162 | A token the reader accepts, digits without a leading zero then a unit letter, is exactly the printed form of the unit it reads |
| Duration.ParseExact | contentScript.js:162 | Any text the reader accepts is the space-joined printed form of the units it reads, so the reader loses nothing either |
| Duration.FormatIsOnlyReading | contentScript.js:137-163 | The formatted text is the only text that reads back to the shown units: no other spelling, zero-padded or not, is accepted for them |
| Duration.SubSecondIsZeroSeconds | contentScript.js:138-160 | Any ms below 1000, negative values included, formats as `0s` |
| Duration.FormatHourMinuteSecond | contentScript.js:150-162 | 3661000 ms formats as `1h 1m 1s`: leading zero units are dropped |
| Duration.FormatOneDay | contentScript.js:150-162 | 86400000 ms formats as `1d 0h 0m 0s`: zero units after the first non-zero unit are kept |

## Findings

| source | as written | input that shows it | evidently intended | confidence | as-written member | corrected member |
|---|---|---|---|---|---|---|
| background.js:88-94 | The `toggleDomain` branch toggles `normalizeDomain(msg.domain)`. It then replies with `getSummary(domain)`, which normalizes the already-normalized domain a second time. | `msg.domain = "www.www.a.com"`, which the content script sends for host `www.www.www.a.com`. `www.a.com` is toggled, but the reply's summary is read for `a.com` and says "not disabled". | The reply reports the state of the key that was toggled. A later `getSummary` for the same raw domain does report it. | low impact, not executed | Background.ToggleAsWrittenMisreports | Background.HandleToggle |

`Background.HandleMessage` is the listener as written, with this reply. `Background.HandleMessageCorrected` is the same listener using the corrected `HandleToggle`.

## Left out

- A calendar aggregation (today/yesterday/last 7 days, month and year windows, 30-day series). Neither `background.js` nor `contentScript.js` contains one, so there is nothing to model.
- `chrome.storage.local` reads and writes, `chrome.runtime` / `chrome.tabs` messaging and `sendResponse`. These are I/O and transport. The store is an in-memory value, and a reply is a returned `Option<Response>`.
- The lost-update race between overlapping asynchronous `incrementTime` calls. This is concurrency; the model is sequential.
- `new URL(...)`. It is a foreign parser, passed in as the `UrlHostname` function parameter.
- `DAY_KEY()`, `Date.now()`, `document.visibilityState` / `hasFocus()` and `setInterval`. These are environment inputs, passed in as the day key, `now` and `visible`, or as a sequence of ticks.
- The two separate `DAY_KEY()` reads of one increment message (in `incrementTime`, then in `getSummary`). The model gives both the same day; across a UTC midnight they could differ.
- `buildOverlay`, `updateVisibility`, `updateOverlayText`, `chooseMessage` and all styling. These are UI.
- Unicode `toLowerCase`: only ASCII letters are folded.
- UsageStore.GetSummary: storage objects are plain maps here. In the source a domain key that names an inherited object property reads as present. Only all-lower-case names can reach the store after normalization, so this means `constructor` and `__proto__`. The disabled flag of such a domain is reported as true from the start (background.js:72). The model reads every absent key as absent.
- UsageStore.ToggleKey: for such an inherited key the source's membership test sees it as present, so every toggle deletes an own key that does not exist. The domain stays reported as disabled and can never be re-enabled (background.js:90-92), and the content script never starts tracking it (contentScript.js:21-24). The model flips membership for every key.
- UsageStore.IncrementTime: for such an inherited key the source finds an inherited value in place of the cell and the total, so neither sum is a number (background.js:44-47). The model adds numbers for every key.
- Background.HandleToggleAsWritten: the reply is stated only for normalized keys without "/". For a key with "/" the second normalization goes through the URL parser, which is a parameter here, so nothing can be said about it.
- JsObject.Ensure: requires a non-empty path. The `String(path).split(".")` branch for non-array paths is not modelled, because the source only calls `ensure` with a three-element array. A key present with the value `undefined` is treated as absent.
- JavaScript numbers are modelled as unbounded integers. Floating point, `NaN` and precision above 2^53 are not modelled. Stored cells and totals are assumed numeric, so `x || 0` on them is "0 if absent".
- The content script's summary fields are assumed present, because the background always sends numbers. `(x || 0) + delta` is therefore `x + delta`.
- The content of the pushed `incrementTime` message: `Step` returns the amount pushed. The domain sent with it is the content script's normalized key.
- A message that is not an object gets no reply. The model treats it the same as an unknown message type (`OtherMsg`).

=== FILE: ascii.dfy ===
/**
  ASCII text helpers. JavaScript's `toLowerCase` folds all of Unicode; this model
  folds only the ASCII letters A-Z, which is all a host name carries.
 */
module Ascii {

  predicate IsUpper(c: char) {
    'A' <= c <= 'Z'
  }

  function LowerChar(c: char): (r: char)
    ensures !IsUpper(r)
    ensures !IsUpper(c) ==> r == c
    ensures IsUpper(c) ==> 'a' <= r <= 'z' && r as int - c as int == 32
  {
    if IsUpper(c) then (c as int + 32) as char else c
  }

  /** Lowercasing, restricted to ASCII letters. */
  function Lower(s: string): (r: string)
    ensures |r| == |s|
    ensures forall i :: 0 <= i < |s| ==> r[i] == LowerChar(s[i])
  {
    seq(|s|, i requires 0 <= i < |s| => LowerChar(s[i]))
  }

  predicate NoUpper(s: string) {
    forall i :: 0 <= i < |s| ==> !IsUpper(s[i])
  }

  predicate HasPrefix(s: string, p: string) {
    |p| <= |s| && s[..|p|] == p
  }

  /** Case-insensitive (ASCII) prefix test, as a regular expression with the `i` flag does it. */
  predicate HasPrefixIgnoringCase(s: string, p: string) {
    |p| <= |s| && Lower(s[..|p|]) == Lower(p)
  }

  lemma LowerFixesNoUpper(s: string)
    requires NoUpper(s)
    ensures Lower(s) == s
  {
  }

  lemma LowerIdempotent(s: string)
    ensures Lower(Lower(s)) == Lower(s)
  {
    assert forall i :: 0 <= i < |s| ==> Lower(Lower(s))[i] == Lower(s)[i];
  }

  lemma LowerAppend(a: string, b: string)
    ensures Lower(a + b) == Lower(a) + Lower(b)
  {
    assert forall i :: 0 <= i < |a + b| ==> Lower(a + b)[i] == (Lower(a) + Lower(b))[i];
  }

  lemma LowerSlice(s: string, i: nat, j: nat)
    requires i <= j <= |s|
    ensures Lower(s[i..j]) == Lower(s)[i..j]
  {
    assert forall k :: 0 <= k < j - i ==> Lower(s[i..j])[k] == Lower(s)[i..j][k];
  }
}

=== FILE: background.dfy ===
/**
  The background worker's two entry points: the runtime message listener
  (`incrementTime`, `getSummary`, `toggleDomain`) and the toolbar button. The
  store is threaded through explicitly; `sendResponse` becomes the returned
  response, and "no response" is None.
 */
module Background {
  import opened Wrappers
  import opened Ascii
  import opened Domain
  import opened UsageStore

  /** A runtime message; fields the sender left out are None. Anything else is `OtherMsg`. */
  datatype Message =
    | IncrementTimeMsg(domain: Option<string>, deltaMs: Option<int>)
    | GetSummaryMsg(domain: Option<string>)
    | ToggleDomainMsg(domain: Option<string>)
    | OtherMsg

  datatype Response =
    | IncrementResponse(result: IncrementResult, summary: Summary)
    | SummaryResponse(summary: Summary)

  /**
    A message without a domain: normalization fails on the undefined value and
    its fallback branch normalizes the empty string.
   */
  function RawDomain(domain: Option<string>): string {
    domain.GetOr("")
  }

  /** The message's delta, with a missing one counted as 0. */
  function DeltaOrZero(deltaMs: Option<int>): (r: int)
    ensures deltaMs.None? ==> r == 0
    ensures deltaMs.Some? ==> r == deltaMs.value
  {
    deltaMs.GetOr(0)
  }

  /**
    The `toggleDomain` branch as written: it toggles the normalized domain, then
    calls getSummary with that already-normalized domain, which normalizes it a
    second time. The reply is right for a key that the second normalization
    leaves alone; for a key still starting with `www.` it reports the key
    without that prefix, which the toggle did not touch.
   */
  function HandleToggleAsWritten(s: Store, hostname: UrlHostname, day: string, domainRaw: string)
    : (r: (Store, Summary))
    ensures r.0 == ToggleDomain(s, hostname, domainRaw)
    ensures var key := NormalizeDomain(domainRaw, hostname);
      && ('/' !in key && !HasPrefix(key, Www) ==> (r.1.disabled <==> key !in s.disabledDomains))
      && ('/' !in key && HasPrefix(key, Www) ==> (r.1.disabled <==> key[4..] in s.disabledDomains))
    // the whole reply is the summary of the key after a second normalization
    ensures var key := NormalizeDomain(domainRaw, hostname);
      var again := if HasPrefix(key, Www) then key[4..] else key;
      '/' !in key ==> r.1 == SummaryOf(r.0, day, again)
    ensures r.1.day == day
  {
    var key := NormalizeDomain(domainRaw, hostname);
    var s' := ToggleKey(s, key);
    NormalizeLowercaseHost(key);
    (s', GetSummary(s', hostname, day, key))
  }

  /**
    The raw domain `www.www.a.com` is toggled under `www.a.com`, but the
    response's summary is read for `a.com`: it reports the domain as still
    enabled, while a later getSummary for the same raw domain reports it disabled.
   */
  lemma ToggleAsWrittenMisreports(hostname: UrlHostname, day: string)
    ensures var (s', summary) := HandleToggleAsWritten(EmptyStore, hostname, day, "www.www.a.com");
      && !summary.disabled
      && GetSummary(s', hostname, day, "www.www.a.com").disabled
    ensures var (s', resp) := HandleMessage(EmptyStore, hostname, day, ToggleDomainMsg(Some("www.www.a.com")));
      && resp.Some? && !resp.value.summary.disabled
      && GetSummary(s', hostname, day, "www.www.a.com").disabled
  {
    var raw := "www.www.a.com";
    assert raw == Www + Www + "a.com";
    assert Ascii.Lower("a.com") == "a.com" by {
      Ascii.LowerFixesNoUpper("a.com");
    }
    StripsOnlyOnePrefix("a.com");
    var once := NormalizeDomain(raw, hostname);
    assert once == Www + "a.com";
    NormalizeHostStrips("a.com");
    assert '/' !in once;
    assert NormalizeDomain(once, hostname) == "a.com";
    assert "a.com" != once;
  }

  /**
    The `toggleDomain` branch with the response read for the key that was
    toggled: the summary's `disabled` is the new membership.
   */
  function HandleToggle(s: Store, hostname: UrlHostname, day: string, domainRaw: string)
    : (r: (Store, Summary))
    ensures r.0 == ToggleDomain(s, hostname, domainRaw)
    ensures r.1.disabled <==> NormalizeDomain(domainRaw, hostname) !in s.disabledDomains
    ensures r.1 == GetSummary(r.0, hostname, day, domainRaw)
  {
    var key := NormalizeDomain(domainRaw, hostname);
    var s' := ToggleKey(s, key);
    (s', SummaryOf(s', day, key))
  }

  /** The runtime message listener, as written. */
  function HandleMessage(s: Store, hostname: UrlHostname, day: string, msg: Message)
    : (r: (Store, Option<Response>))
    ensures msg.IncrementTimeMsg? ==>
      var key := NormalizeDomain(RawDomain(msg.domain), hostname);
      && r.0 == IncrementTime(s, hostname, day, RawDomain(msg.domain), DeltaOrZero(msg.deltaMs)).0
      && r.1.Some? && r.1.value.IncrementResponse?
      && r.1.value.result.todayMs == DayMs(s.usageByDay, day, key) + DeltaOrZero(msg.deltaMs)
      && r.1.value.result.lifetimeMs == MsOr0(s.totalMsByDomain, key) + DeltaOrZero(msg.deltaMs)
      && r.1.value.summary.todayMs == r.1.value.result.todayMs
      && r.1.value.summary.lifetimeMs == r.1.value.result.lifetimeMs
      && r.1.value.summary.disabled == (key in s.disabledDomains)
      && r.1.value.result.day == day && r.1.value.summary.day == day
    ensures msg.GetSummaryMsg? ==>
      r.0 == s && r.1 == Some(SummaryResponse(GetSummary(s, hostname, day, RawDomain(msg.domain))))
    ensures msg.ToggleDomainMsg? ==>
      var key := NormalizeDomain(RawDomain(msg.domain), hostname);
      && r.0 == ToggleDomain(s, hostname, RawDomain(msg.domain))
      && r.1.Some? && r.1.value.SummaryResponse?
      && ('/' !in key && !HasPrefix(key, Www) ==> (r.1.value.summary.disabled <==> key !in s.disabledDomains))
      && ('/' !in key && HasPrefix(key, Www) ==> (r.1.value.summary.disabled <==> key[4..] in s.disabledDomains))
      && ('/' !in key ==>
            r.1 == Some(SummaryResponse(SummaryOf(r.0, day, if HasPrefix(key, Www) then key[4..] else key))))
    ensures msg.OtherMsg? ==> r == (s, None)
  {
    match msg
    case IncrementTimeMsg(domain, deltaMs) =>
      var raw := RawDomain(domain);
      var (s', res) := IncrementTime(s, hostname, day, raw, DeltaOrZero(deltaMs));
      (s', Some(IncrementResponse(res, GetSummary(s', hostname, day, raw))))
    case GetSummaryMsg(domain) =>
      (s, Some(SummaryResponse(GetSummary(s, hostname, day, RawDomain(domain)))))
    case ToggleDomainMsg(domain) =>
      var (s', summary) := HandleToggleAsWritten(s, hostname, day, RawDomain(domain));
      (s', Some(SummaryResponse(summary)))
    case OtherMsg =>
      (s, None)
  }

  /**
    The listener with the corrected toggle reply: every message is handled as
    written, except that a toggle reports the state of the key it toggled.
   */
  function HandleMessageCorrected(s: Store, hostname: UrlHostname, day: string, msg: Message)
    : (r: (Store, Option<Response>))
    ensures r.0 == HandleMessage(s, hostname, day, msg).0
    ensures !msg.ToggleDomainMsg? ==> r == HandleMessage(s, hostname, day, msg)
    ensures msg.ToggleDomainMsg? ==>
      var raw := RawDomain(msg.domain);
      && r.1.Some? && r.1.value.SummaryResponse?
      && (r.1.value.summary.disabled <==> NormalizeDomain(raw, hostname) !in s.disabledDomains)
      && r.1.value.summary == GetSummary(r.0, hostname, day, raw)
  {
    match msg
    case ToggleDomainMsg(domain) =>
      var (s', summary) := HandleToggle(s, hostname, day, RawDomain(domain));
      (s', Some(SummaryResponse(summary)))
    case _ =>
      HandleMessage(s, hostname, day, msg)
  }

  /**
    An `incrementTime` message without `deltaMs` keeps the numbers as they were:
    the returned today and lifetime values are the prior ones. (An absent cell
    and total are still created, at 0.)
   */
  lemma MissingDeltaKeepsNumbers(s: Store, hostname: UrlHostname, day: string, domain: Option<string>)
    ensures var before := GetSummary(s, hostname, day, RawDomain(domain));
      var (s', resp) := HandleMessage(s, hostname, day, IncrementTimeMsg(domain, None));
      && resp.Some? && resp.value.IncrementResponse?
      && resp.value.result.todayMs == before.todayMs
      && resp.value.result.lifetimeMs == before.lifetimeMs
      && resp.value.summary == before
  {
  }

  /** The response to an increment carries a summary that agrees with the increment's result. */
  lemma IncrementResponseAgrees(s: Store, hostname: UrlHostname, day: string, domain: Option<string>, deltaMs: Option<int>)
    ensures var (_, resp) := HandleMessage(s, hostname, day, IncrementTimeMsg(domain, deltaMs));
      && resp.Some? && resp.value.IncrementResponse?
      && resp.value.summary.todayMs == resp.value.result.todayMs
      && resp.value.summary.lifetimeMs == resp.value.result.lifetimeMs
  {
    SummaryAfterIncrement(s, hostname, day, RawDomain(domain), DeltaOrZero(deltaMs));
  }

  /** The browser tab handed to the toolbar listener; missing fields are None. */
  datatype Tab = Tab(id: Option<int>, url: Option<string>)

  /** The toolbar click is ignored when there is no tab, its id is missing or zero, or its url is missing or empty. */
  predicate Ignored(tab: Option<Tab>) {
    || tab.None?
    || tab.value.id.None? || tab.value.id.value == 0
    || tab.value.url.None? || tab.value.url.value == ""
  }

  /**
    The toolbar button: for a usable tab, toggle the domain of its URL and
    notify that tab (the returned id); otherwise do nothing.
   */
  function OnToolbarClick(s: Store, hostname: UrlHostname, tab: Option<Tab>): (r: (Store, Option<int>))
    ensures Ignored(tab) ==> r == (s, None)
    ensures !Ignored(tab) ==>
      var key := NormalizeDomain(tab.value.url.value, hostname);
      && r.1 == tab.value.id
      && (key in r.0.disabledDomains <==> key !in s.disabledDomains)
      && (forall k :: k != key ==> (k in r.0.disabledDomains <==> k in s.disabledDomains))
      && r.0.usageByDay == s.usageByDay && r.0.totalMsByDomain == s.totalMsByDomain
  {
    if Ignored(tab) then (s, None)
    else (ToggleDomain(s, hostname, tab.value.url.value), tab.value.id)
  }

  /** Clicking the toolbar twice on the same tab restores the store. */
  lemma ToolbarTwiceRestores(s: Store, hostname: UrlHostname, tab: Option<Tab>)
    ensures OnToolbarClick(OnToolbarClick(s, hostname, tab).0, hostname, tab).0 == s
  {
    if !Ignored(tab) {
      ToggleTwiceRestores(s, hostname, tab.value.url.value);
    }
  }

  /** Two `toggleDomain` messages for the same domain restore the store. */
  lemma ToggleMessageTwiceRestores(s: Store, hostname: UrlHostname, day: string, domain: Option<string>)
    ensures var s1 := HandleMessage(s, hostname, day, ToggleDomainMsg(domain)).0;
      HandleMessage(s1, hostname, day, ToggleDomainMsg(domain)).0 == s
  {
    ToggleTwiceRestores(s, hostname, RawDomain(domain));
  }

  /** Every message keeps the lifetime totals equal to the per-day sums. */
  lemma HandleMessagePreservesConsistency(s: Store, hostname: UrlHostname, day: string, msg: Message)
    requires TotalsConsistent(s)
    ensures TotalsConsistent(HandleMessage(s, hostname, day, msg).0)
  {
    if msg.IncrementTimeMsg? {
      IncrementPreservesConsistency(s, hostname, day, RawDomain(msg.domain), DeltaOrZero(msg.deltaMs));
    }
  }
}

=== FILE: domain.dfy ===
/**
  Domain-name normalization. The extension has two versions: the background
  worker's (strips a lower-case `www.` before lowercasing, and parses URLs) and
  the content script's (strips `www.` in any case).
 */
module Domain {
  import opened Wrappers
  import opened Ascii

  /** The host name the platform's URL parser gives for `s`, or None when it rejects the text. */
  type UrlHostname = string -> Option<string>

  const Www: string := "www."

  /** Background bare-host path: one leading lower-case `www.` removed, then the rest lowercased. */
  function NormalizeHost(host: string): (r: string)
    ensures NoUpper(r)
    ensures Lower(host) == (if HasPrefix(host, Www) then Www else "") + r
  {
    if HasPrefix(host, Www) then
      LowerAppend(host[..4], host[4..]);
      assert host == host[..4] + host[4..];
      Lower(host[4..])
    else
      Lower(host)
  }

  /**
    The background worker's normalizeDomain: input containing "/" is parsed as a
    URL and its hostname normalized; if parsing throws, the catch branch
    normalizes the raw string the same way.
   */
  function NormalizeDomain(input: string, hostname: UrlHostname): (r: string)
    ensures NoUpper(r)
    ensures '/' !in input ==> r == NormalizeHost(input)
    ensures '/' in input && hostname(input).Some? ==> r == NormalizeHost(hostname(input).value)
    ensures '/' in input && hostname(input).None? ==> r == NormalizeHost(input)
  {
    if '/' in input then
      match hostname(input)
      case Some(h) => NormalizeHost(h)
      case None => NormalizeHost(input)
    else
      NormalizeHost(input)
  }

  /** Content script: one leading `www.` in any letter case removed, then the rest lowercased. */
  function ContentNormalize(host: string): (r: string)
    ensures NoUpper(r)
    ensures |r| == |host| - (if HasPrefixIgnoringCase(host, Www) then 4 else 0)
  {
    if HasPrefixIgnoringCase(host, Www) then Lower(host[4..]) else Lower(host)
  }

  /** Only a lower-case `www.` is stripped by the background: `WWW.` survives, lowercased. */
  lemma UppercaseWwwSurvives(rest: string)
    ensures NormalizeHost("WWW." + rest) == Www + Lower(rest)
  {
    var h := "WWW." + rest;
    assert h[..4] == "WWW.";
    assert !HasPrefix(h, Www);
    LowerAppend("WWW.", rest);
    LowerUpperWww();
  }

  /** A lower-case `www.` prefix is removed and the rest lowercased. */
  lemma NormalizeHostStrips(rest: string)
    ensures NormalizeHost(Www + rest) == Lower(rest)
  {
    assert (Www + rest)[..4] == Www;
    assert (Www + rest)[4..] == rest;
  }

  /**
    On a host that is already lower-case, the background's normalization only
    strips the leading `www.`. This is what a second normalization of a key does.
   */
  lemma NormalizeLowercaseHost(key: string)
    requires NoUpper(key)
    ensures NormalizeHost(key) == (if HasPrefix(key, Www) then key[4..] else key)
  {
    LowerFixesNoUpper(key);
    if HasPrefix(key, Www) {
      LowerFixesNoUpper(key[4..]);
    }
  }

  /** Exactly one leading `www.` is stripped by the background, not all of them. */
  lemma StripsOnlyOnePrefix(rest: string)
    ensures NormalizeHost(Www + Www + rest) == Www + Lower(rest)
  {
    assert Www + Www + rest == Www + (Www + rest);
    NormalizeHostStrips(Www + rest);
    LowerAppend(Www, rest);
    LowerFixesNoUpper(Www);
  }

  /**
    The content script's normalization is the background's bare-host
    normalization applied to the lowercased host: matching the prefix in any case
    plays the role of lowercasing first.
   */
  lemma ContentIsBackgroundOfLowered(host: string)
    ensures ContentNormalize(host) == NormalizeHost(Lower(host))
  {
    var lh := Lower(host);
    if 4 <= |host| {
      LowerSlice(host, 0, 4);
      assert lh[..4] == Lower(host[..4]);
      assert Lower(Www) == Www by {
        assert forall i :: 0 <= i < 4 ==> Lower(Www)[i] == Www[i];
      }
      assert HasPrefixIgnoringCase(host, Www) <==> HasPrefix(lh, Www) by {
        LowerIdempotent(host[..4]);
      }
      LowerSlice(host, 4, |host|);
      assert lh[4..] == Lower(host[4..]);
    }
    LowerIdempotent(host);
    if HasPrefixIgnoringCase(host, Www) {
      LowerIdempotent(host[4..]);
    }
  }

  /**
    A key the content script sends is left alone by the background's second
    normalization unless it still starts with `www.`.
   */
  lemma BackgroundKeepsContentKey(host: string)
    requires !HasPrefix(ContentNormalize(host), Www)
    ensures NormalizeHost(ContentNormalize(host)) == ContentNormalize(host)
  {
    var k := ContentNormalize(host);
    if HasPrefixIgnoringCase(host, Www) {
      LowerIdempotent(host[4..]);
    } else {
      LowerIdempotent(host);
    }
  }

  /** The content script strips `www.` whatever its case. */
  lemma ContentNormalizeStrips(prefix: string, rest: string)
    requires |prefix| == 4 && Lower(prefix) == Www
    ensures ContentNormalize(prefix + rest) == Lower(rest)
  {
    var h := prefix + rest;
    assert h[..4] == prefix;
    assert h[4..] == rest;
    LowerFixesNoUpper(Www);
  }

  lemma LowerUpperWww()
    ensures Lower("WWW.") == Www
  {
    assert Lower("WWW.")[0] == 'w' && Lower("WWW.")[1] == 'w' && Lower("WWW.")[2] == 'w';
  }

  lemma LowerExampleCom()
    ensures Lower("Example.com") == "example.com"
    ensures Lower("example.com") == "example.com"
  {
    LowerFixesNoUpper("example.com");
    assert "Example.com" == "E" + "xample.com";
    LowerAppend("E", "xample.com");
    assert Lower("E") == "e" by {
      assert Lower("E")[0] == 'e';
    }
    LowerFixesNoUpper("xample.com");
  }

  /** `www.Example.com` and `WWW.example.com` both become `example.com` in the content script. */
  lemma ContentNormalizeExamples()
    ensures ContentNormalize("www.Example.com") == "example.com"
    ensures ContentNormalize("WWW.example.com") == "example.com"
  {
    assert "www.Example.com" == Www + "Example.com";
    assert "WWW.example.com" == "WWW." + "example.com";
    LowerFixesNoUpper(Www);
    LowerUpperWww();
    LowerExampleCom();
    ContentNormalizeStrips(Www, "Example.com");
    ContentNormalizeStrips("WWW.", "example.com");
  }

  /** The background maps `www.Example.com` and `example.com` to the same key. */
  lemma BackgroundNormalizeExamples(hostname: UrlHostname)
    ensures NormalizeDomain("www.Example.com", hostname) == "example.com"
    ensures NormalizeDomain("example.com", hostname) == "example.com"
  {
    assert '/' !in "www.Example.com" && '/' !in "example.com";
    assert "www.Example.com" == Www + "Example.com";
    NormalizeHostStrips("Example.com");
    LowerExampleCom();
    var key := "example.com";
    assert key[..4] != Www by { assert key[0] != Www[0]; }
  }
}

=== FILE: duration.dfy ===
/**
  `formatDuration(ms)`: whole seconds split into years (of 365 days), days,
  hours, minutes and seconds, printed as "1y 2d 3h 4m 5s" starting at the first
  non-zero unit among y/d/h/m and always ending with seconds. A parser for that
  format is the partner that shows the output loses nothing.
 */
module Duration {
  import opened Wrappers

  const SecsPerDay := 86400
  /** The source's approximate year: 365 days. */
  const SecsPerYear := 365 * SecsPerDay

  /**
    Whole seconds in `ms`, rounded down and never below zero. Dafny's `/` with a
    positive divisor rounds toward negative infinity, as the source's floor does.
   */
  function TotalSeconds(ms: int): (t: nat)
    ensures ms < 1000 ==> t == 0
    ensures ms >= 0 ==> t * 1000 <= ms < t * 1000 + 1000
  {
    var f := ms / 1000;
    if f < 0 then 0 else f
  }

  datatype Breakdown = Breakdown(y: nat, d: nat, h: nat, m: nat, s: nat)

  predicate InRange(b: Breakdown) {
    b.d < 365 && b.h < 24 && b.m < 60 && b.s < 60
  }

  function Seconds(b: Breakdown): nat {
    b.y * SecsPerYear + b.d * SecsPerDay + b.h * 3600 + b.m * 60 + b.s
  }

  /** The y/d/h/m/s split: every unit below years is in range and together they make up `totalSec`. */
  function Decompose(totalSec: nat): (b: Breakdown)
    ensures InRange(b)
    ensures Seconds(b) == totalSec
  {
    var y := totalSec / SecsPerYear;
    var r1 := totalSec % SecsPerYear;
    var d := r1 / SecsPerDay;
    var r2 := r1 % SecsPerDay;
    var h := r2 / 3600;
    var r3 := r2 % 3600;
    var m := r3 / 60;
    var s := r3 % 60;
    assert r3 == m * 60 + s;
    assert r2 == h * 3600 + r3;
    assert r1 == d * SecsPerDay + r2;
    assert totalSec == y * SecsPerYear + r1;
    Breakdown(y, d, h, m, s)
  }

  lemma DivModUnique(q: nat, r: nat, n: nat)
    requires 0 <= r < n
    ensures (q * n + r) / n == q && (q * n + r) % n == r
  {
    var a := q * n + r;
    var q', r' := a / n, a % n;
    assert q' * n + r' == q * n + r;
    if q' < q {
      assert (q - q') * n == q * n - q' * n;
      MulAtLeast(q - q', n);
    } else if q' > q {
      assert (q' - q) * n == q' * n - q * n;
      MulAtLeast(q' - q, n);
    }
  }

  lemma MulAtLeast(k: int, n: nat)
    requires k >= 1
    ensures k * n >= n
  {
  }

  /** The split is the only one in range: Decompose inverts Seconds. */
  lemma {:induction false} DecomposeUnique(b: Breakdown)
    requires InRange(b)
    ensures Decompose(Seconds(b)) == b
  {
    var r3 := b.m * 60 + b.s;
    var r2 := b.h * 3600 + r3;
    var r1 := b.d * SecsPerDay + r2;
    assert r2 < SecsPerDay;
    assert r1 < SecsPerYear by {
      assert b.d * SecsPerDay <= 364 * SecsPerDay;
    }
    DivModUnique(b.y, r1, SecsPerYear);
    DivModUnique(b.d, r2, SecsPerDay);
    DivModUnique(b.h, r3, 3600);
    DivModUnique(b.m, b.s, 60);
  }

  /** One printed unit: a value and its letter. */
  datatype Part = Part(v: nat, unit: char)

  const Units: string := "ydhms"

  function Factor(unit: char): nat {
    match unit
    case 'y' => SecsPerYear
    case 'd' => SecsPerDay
    case 'h' => 3600
    case 'm' => 60
    case _ => 1
  }

  /** The seconds a list of printed units stands for. */
  function ValueOf(ps: seq<Part>): nat {
    if ps == [] then 0 else ps[0].v * Factor(ps[0].unit) + ValueOf(ps[1..])
  }

  function AllParts(b: Breakdown): seq<Part> {
    [Part(b.y, 'y'), Part(b.d, 'd'), Part(b.h, 'h'), Part(b.m, 'm'), Part(b.s, 's')]
  }

  /**
    Index of the first non-zero unit among y, d, h, m (searching from `i`), or
    the seconds index 4 when all of them are zero.
   */
  function FirstShown(ps: seq<Part>, i: nat): (r: nat)
    requires |ps| == 5 && i <= 4
    ensures i <= r <= 4
    ensures forall j :: i <= j < r ==> ps[j].v == 0
    ensures r < 4 ==> ps[r].v > 0
    decreases 4 - i
  {
    if i == 4 then 4 else if ps[i].v > 0 then i else FirstShown(ps, i + 1)
  }

  /**
    The units printed for `ms`: a suffix of y, d, h, m, s, in that order, ending
    with seconds, whose first unit is non-zero unless only seconds remain, and
    which together stand for exactly the whole seconds in `ms`.
   */
  function Shown(ms: int): (ps: seq<Part>)
    ensures 1 <= |ps| <= 5
    ensures forall i :: 0 <= i < |ps| ==> ps[i].unit == Units[5 - |ps| + i]
    ensures ps[|ps| - 1].unit == 's'
    ensures |ps| > 1 ==> ps[0].v > 0
    ensures ValueOf(ps) == TotalSeconds(ms)
    ensures forall i :: 0 <= i < |ps| ==>
      && (ps[i].unit == 'd' ==> ps[i].v < 365)
      && (ps[i].unit == 'h' ==> ps[i].v < 24)
      && (ps[i].unit in "ms" ==> ps[i].v < 60)
  {
    var b := Decompose(TotalSeconds(ms));
    var all := AllParts(b);
    var start := FirstShown(all, 0);
    ValueOfShown(b, start);
    PartsInRange(b, start);
    all[start..]
  }

  /** Every unit below years that the breakdown prints is within its range. */
  lemma PartsInRange(b: Breakdown, start: nat)
    requires InRange(b) && start <= 4
    ensures forall i :: 0 <= i < |AllParts(b)[start..]| ==>
      && (AllParts(b)[start..][i].unit == 'd' ==> AllParts(b)[start..][i].v < 365)
      && (AllParts(b)[start..][i].unit == 'h' ==> AllParts(b)[start..][i].v < 24)
      && (AllParts(b)[start..][i].unit in "ms" ==> AllParts(b)[start..][i].v < 60)
  {
    var all := AllParts(b);
    forall i | 0 <= i < |all[start..]|
      ensures && (all[start..][i].unit == 'd' ==> all[start..][i].v < 365)
              && (all[start..][i].unit == 'h' ==> all[start..][i].v < 24)
              && (all[start..][i].unit in "ms" ==> all[start..][i].v < 60)
    {
      assert all[start..][i] == all[start + i];
    }
  }

  lemma ValueOfShown(b: Breakdown, start: nat)
    requires start <= 4
    requires forall j :: 0 <= j < start ==> AllParts(b)[j].v == 0
    ensures ValueOf(AllParts(b)[start..]) == Seconds(b)
  {
    var all := AllParts(b);
    assert ValueOf(all[4..]) == b.s by {
      assert all[4..][1..] == [];
    }
    assert ValueOf(all[3..]) == b.m * 60 + ValueOf(all[4..]) by {
      assert all[3..][1..] == all[4..];
    }
    assert ValueOf(all[2..]) == b.h * 3600 + ValueOf(all[3..]) by {
      assert all[2..][1..] == all[3..];
    }
    assert ValueOf(all[1..]) == b.d * SecsPerDay + ValueOf(all[2..]) by {
      assert all[1..][1..] == all[2..];
    }
    assert ValueOf(all[0..]) == b.y * SecsPerYear + ValueOf(all[1..]) by {
      assert all[0..][1..] == all[1..];
    }
  }

  function DigitChar(n: nat): (c: char)
    requires n < 10
    ensures '0' <= c <= '9'
  {
    ('0' as int + n) as char
  }

  /** The decimal digits of n, with no leading zeros. */
  function NatToString(n: nat): (s: string)
    ensures |s| >= 1
    ensures forall i :: 0 <= i < |s| ==> '0' <= s[i] <= '9'
    ensures |s| > 1 ==> s[0] != '0'
  {
    if n < 10 then [DigitChar(n)] else NatToString(n / 10) + [DigitChar(n % 10)]
  }

  /** One unit printed as its value followed by its letter. */
  function Render(p: Part): string {
    NatToString(p.v) + [p.unit]
  }

  /** The printed units separated by single spaces. */
  function Join(ps: seq<Part>): string {
    if ps == [] then "" else if |ps| == 1 then Render(ps[0]) else Render(ps[0]) + " " + Join(ps[1..])
  }

  /** `formatDuration(ms)`: the text reads back to exactly the shown units. */
  function FormatDuration(ms: int): (r: string)
    ensures ParseDuration(r) == Some(Shown(ms))
  {
    var ps := Shown(ms);
    assert forall i :: 0 <= i < |ps| ==> ps[i].unit in Units;
    ParseJoin(ps);
    Join(ps)
  }

  // ---------------------------------------------------------------------------
  // Parsing the format back

  predicate AllDigits(s: string) {
    forall i :: 0 <= i < |s| ==> '0' <= s[i] <= '9'
  }

  function DigitsValue(s: string): nat
    requires AllDigits(s)
  {
    if s == [] then 0 else DigitsValue(s[..|s| - 1]) * 10 + (s[|s| - 1] as int - '0' as int)
  }

  /** One token "<digits><unit letter>", the digits without a leading zero. */
  function ParsePart(tok: string): Option<Part> {
    if && |tok| >= 2 && tok[|tok| - 1] in Units && AllDigits(tok[..|tok| - 1])
       && (|tok| == 2 || tok[0] != '0')
    then
      Some(Part(DigitsValue(tok[..|tok| - 1]), tok[|tok| - 1]))
    else None
  }

  /** The text cut at every space: the maximal space-free pieces, empty ones included. */
  function Split(s: string): (toks: seq<string>)
    ensures |toks| >= 1
  {
    if s == [] then [""]
    else if s[0] == ' ' then [""] + Split(s[1..])
    else
      var rest := Split(s[1..]);
      [[s[0]] + rest[0]] + rest[1..]
  }

  function ParseTokens(toks: seq<string>): Option<seq<Part>> {
    if toks == [] then Some([])
    else
      match ParsePart(toks[0])
      case None => None
      case Some(p) =>
        match ParseTokens(toks[1..])
        case None => None
        case Some(rest) => Some([p] + rest)
  }

  /** Reads a formatted duration back into its units; None when the text is not in the format. */
  function ParseDuration(s: string): Option<seq<Part>> {
    ParseTokens(Split(s))
  }

  lemma {:induction false} DigitsRoundTrip(n: nat)
    ensures AllDigits(NatToString(n)) && DigitsValue(NatToString(n)) == n
  {
    if n >= 10 {
      DigitsRoundTrip(n / 10);
      var s := NatToString(n);
      assert s[..|s| - 1] == NatToString(n / 10);
    }
  }

  lemma RenderRoundTrip(p: Part)
    requires p.unit in Units
    ensures ParsePart(Render(p)) == Some(p)
    ensures ' ' !in Render(p)
  {
    var tok := Render(p);
    assert tok[..|tok| - 1] == NatToString(p.v);
    DigitsRoundTrip(p.v);
  }

  lemma {:induction false} SplitAfterToken(a: string, b: string)
    requires ' ' !in a
    ensures Split(a + " " + b) == [a] + Split(b)
  {
    var s := a + " " + b;
    if a == [] {
      assert s == " " + b;
      assert s[1..] == b;
    } else {
      assert s[1..] == a[1..] + " " + b;
      SplitAfterToken(a[1..], b);
      assert [a[0]] + a[1..] == a;
    }
  }

  lemma SplitToken(a: string)
    requires ' ' !in a
    ensures Split(a) == [a]
  {
    if a != [] {
      SplitToken(a[1..]);
      assert [a[0]] + a[1..] == a;
    }
  }

  lemma ParseTokensCons(tok: string, toks: seq<string>, p: Part, rest: seq<Part>)
    requires ParsePart(tok) == Some(p) && ParseTokens(toks) == Some(rest)
    ensures ParseTokens([tok] + toks) == Some([p] + rest)
  {
    assert ([tok] + toks)[1..] == toks;
  }

  lemma {:induction false} ParseJoin(ps: seq<Part>)
    requires |ps| >= 1
    requires forall i :: 0 <= i < |ps| ==> ps[i].unit in Units
    ensures ParseDuration(Join(ps)) == Some(ps)
    decreases |ps|
  {
    RenderRoundTrip(ps[0]);
    var tok := Render(ps[0]);
    if |ps| == 1 {
      SplitToken(tok);
      ParseTokensCons(tok, [], ps[0], []);
      assert [tok] + [] == [tok];
      assert [ps[0]] + [] == ps;
    } else {
      ParseJoin(ps[1..]);
      SplitAfterToken(tok, Join(ps[1..]));
      assert Join(ps) == tok + " " + Join(ps[1..]);
      ParseTokensCons(tok, Split(Join(ps[1..])), ps[0], ps[1..]);
      assert [ps[0]] + ps[1..] == ps;
    }
  }

  /** The units read back from the printed text stand for exactly the whole seconds in `ms`. */
  lemma FormatParseRoundTrip(ms: int)
    ensures ValueOf(ParseDuration(FormatDuration(ms)).value) == TotalSeconds(ms)
  {
  }

  /** A canonical digit string (no leading zero) is what NatToString prints for its value. */
  lemma {:induction false} DigitsCanonical(t: string)
    requires |t| >= 1 && AllDigits(t) && (|t| == 1 || t[0] != '0')
    ensures NatToString(DigitsValue(t)) == t
    decreases |t|
  {
    var n := |t|;
    var d := t[n - 1] as int - '0' as int;
    var init := t[..n - 1];
    assert AllDigits(init) by {
      forall i | 0 <= i < |init| ensures '0' <= init[i] <= '9' {
        assert init[i] == t[i];
      }
    }
    assert DigitsValue(t) == DigitsValue(init) * 10 + d;
    if n == 1 {
      assert init == [];
      assert [DigitChar(d)] == t;
    } else {
      DigitsCanonical(init);
      var v' := DigitsValue(init);
      assert v' >= 1 by {
        if n - 1 == 1 {
          assert init[..0] == [];
          assert v' == init[0] as int - '0' as int;
        } else {
          assert |NatToString(v')| > 1;
        }
      }
      var v := DigitsValue(t);
      assert v / 10 == v' && v % 10 == d;
      assert NatToString(v) == NatToString(v') + [DigitChar(d)];
      assert t == init + [t[n - 1]];
    }
  }

  /** A token the parser accepts is exactly the rendering of the unit it reads. */
  lemma ParsePartExact(tok: string, p: Part)
    requires ParsePart(tok) == Some(p)
    ensures Render(p) == tok
  {
    var digits := tok[..|tok| - 1];
    assert |digits| == 1 || digits[0] == tok[0];
    DigitsCanonical(digits);
    assert tok == digits + [tok[|tok| - 1]];
  }

  /** The position of the first space. */
  function FirstSpace(s: string): (i: nat)
    requires ' ' in s
    ensures i < |s| && s[i] == ' ' && ' ' !in s[..i]
  {
    if s[0] == ' ' then 0
    else
      var j := FirstSpace(s[1..]);
      assert s[..j + 1] == [s[0]] + s[1..][..j];
      j + 1
  }

  /** Any text the parser accepts is the printed form of the units it reads. */
  lemma {:induction false} ParseExact(s: string, ps: seq<Part>)
    requires ParseDuration(s) == Some(ps)
    ensures |ps| >= 1 && Join(ps) == s
    decreases |s|
  {
    if ' ' !in s {
      SplitToken(s);
      assert ParseTokens([s]) == Some(ps);
      assert [s][0] == s && [s][1..] == [];
      var p := ParsePart(s).value;
      assert ParseTokens([s][1..]) == Some([]);
      assert ps == [p] + [];
      ParsePartExact(s, p);
    } else {
      var i := FirstSpace(s);
      var a, b := s[..i], s[i + 1..];
      assert s == a + " " + b;
      SplitAfterToken(a, b);
      assert ([a] + Split(b))[1..] == Split(b);
      var p := ParsePart(a).value;
      var rest := ParseTokens(Split(b)).value;
      assert ps == [p] + rest;
      ParseExact(b, rest);
      ParsePartExact(a, p);
      assert ps[1..] == rest;
    }
  }

  /**
    The printed text is the only text that reads back to the shown units: the
    format is unambiguous.
   */
  lemma FormatIsOnlyReading(ms: int, t: string)
    requires ParseDuration(t) == Some(Shown(ms))
    ensures t == FormatDuration(ms)
  {
    ParseExact(t, Shown(ms));
  }

  /** Below one second, including negative input, only "0s" is printed. */
  lemma SubSecondIsZeroSeconds(ms: int)
    requires ms < 1000
    ensures FormatDuration(ms) == "0s"
  {
    var b := Decompose(0);
    assert b == Breakdown(0, 0, 0, 0, 0) by {
      DecomposeUnique(Breakdown(0, 0, 0, 0, 0));
    }
    assert Shown(ms) == [Part(0, 's')];
    assert NatToString(0) == "0";
  }

  /** An hour, a minute and a second: leading zero units are dropped. */
  lemma FormatHourMinuteSecond()
    ensures FormatDuration(3661000) == "1h 1m 1s"
  {
    var b := Breakdown(0, 0, 1, 1, 1);
    assert TotalSeconds(3661000) == 3661;
    assert Seconds(b) == 3661;
    DecomposeUnique(b);
    var all := AllParts(b);
    assert FirstShown(all, 0) == 2;
    assert Shown(3661000) == [Part(1, 'h'), Part(1, 'm'), Part(1, 's')];
    assert NatToString(1) == "1";
  }

  /** One day: zero units after the first non-zero one are still printed. */
  lemma FormatOneDay()
    ensures FormatDuration(86400000) == "1d 0h 0m 0s"
  {
    ShownOneDay();
    JoinOneDay();
  }

  lemma JoinOneDay()
    ensures Join([Part(1, 'd'), Part(0, 'h'), Part(0, 'm'), Part(0, 's')]) == "1d 0h 0m 0s"
  {
    assert NatToString(0) == "0" && NatToString(1) == "1";
    assert Join([Part(0, 's')]) == "0s";
    assert Join([Part(0, 'm'), Part(0, 's')]) == "0m 0s";
    assert Join([Part(0, 'h'), Part(0, 'm'), Part(0, 's')]) == "0h 0m 0s";
  }

  lemma ShownOneDay()
    ensures Shown(86400000) == [Part(1, 'd'), Part(0, 'h'), Part(0, 'm'), Part(0, 's')]
  {
    var b := Breakdown(0, 1, 0, 0, 0);
    assert TotalSeconds(86400000) == 86400;
    assert Seconds(b) == 86400;
    DecomposeUnique(b);
    var all := AllParts(b);
    assert FirstShown(all, 0) == 1;
  }
}

=== FILE: jsobject.dfy ===
/**
  A JSON-like value tree, enough to model the background worker's generic
  `ensure(obj, path, defVal)` helper, which walks a key path creating missing
  intermediate objects and filling the leaf with a default only when it is
  undefined.
 */
module JsObject {
  import opened Wrappers

  /** A stored value. An absent key of an `Obj` is JavaScript's `undefined`. */
  datatype JsValue =
    | Obj(fields: map<string, JsValue>)
    | Num(n: int)
    | Str(s: string)
    | Bool(b: bool)
    | Null

  /**
    The value at `path`, walking only through objects; None when some
    intermediate level is not an object or the leaf key is absent.
   */
  function Lookup(obj: map<string, JsValue>, path: seq<string>): Option<JsValue>
    requires |path| >= 1
    decreases |path|
  {
    if path[0] !in obj then None
    else if |path| == 1 then Some(obj[path[0]])
    else if obj[path[0]].Obj? then Lookup(obj[path[0]].fields, path[1..])
    else None
  }

  /**
    `ensure(obj, path, defVal)`: returns the updated root object and the value
    now at the leaf. An intermediate level that is missing or not a (non-null)
    object is replaced by `{}`; the leaf is set to `defVal` only when absent.
   */
  function Ensure(obj: map<string, JsValue>, path: seq<string>, defVal: JsValue): (r: (map<string, JsValue>, JsValue))
    requires |path| >= 1
    ensures Lookup(r.0, path) == Some(r.1)
    ensures Lookup(obj, path).Some? ==> r.0 == obj && r.1 == Lookup(obj, path).value
    ensures Lookup(obj, path).None? ==> r.1 == defVal
    ensures r.0.Keys == obj.Keys + {path[0]}
    ensures forall k :: k in obj && k != path[0] ==> r.0[k] == obj[k]
    decreases |path|
  {
    var k := path[0];
    if |path| == 1 then
      if k in obj then (obj, obj[k]) else (obj[k := defVal], defVal)
    else
      var child := if k in obj && obj[k].Obj? then obj[k].fields else map[];
      var (child', leaf) := Ensure(child, path[1..], defVal);
      (obj[k := Obj(child')], leaf)
  }

  /** `q` names `path` itself or one of the levels on the way to it. */
  predicate OnPath(q: seq<string>, path: seq<string>) {
    |q| <= |path| && q == path[..|q|]
  }

  /** A path that agrees on its first key is on `path` when its tail is on the tail of `path`. */
  lemma OnPathStep(q: seq<string>, path: seq<string>)
    requires |q| >= 1 && |path| >= 1 && q[0] == path[0]
    ensures |q| == 1 ==> OnPath(q, path)
    ensures |q| > 1 && OnPath(q[1..], path[1..]) ==> OnPath(q, path)
  {
    if |q| > 1 && OnPath(q[1..], path[1..]) {
      assert q == [q[0]] + q[1..];
      assert path[..|q|] == [path[0]] + path[1..][..|q| - 1];
    }
  }

  /**
    Everything reachable off the path is left as it was, at every depth: an
    existing object level is reused, so its other keys survive.
   */
  lemma {:induction false} EnsureKeepsOtherPaths(obj: map<string, JsValue>, path: seq<string>, defVal: JsValue, q: seq<string>)
    requires |path| >= 1 && |q| >= 1
    requires Lookup(obj, q).Some? && !OnPath(q, path)
    ensures Lookup(Ensure(obj, path, defVal).0, q) == Lookup(obj, q)
    decreases |path|
  {
    var r := Ensure(obj, path, defVal).0;
    var k := q[0];
    if k != path[0] {
      assert r[k] == obj[k];
    } else if |path| == 1 {
      assert q[..1] == path[..1];
      assert r == obj;
    } else {
      OnPathStep(q, path);
      var child := obj[k].fields;
      EnsureKeepsOtherPaths(child, path[1..], defVal, q[1..]);
      assert r[k] == Obj(Ensure(child, path[1..], defVal).0);
    }
  }

  /**
    Nothing is created off the path, at any depth: a path that is neither a
    level on the way to `path` nor below its leaf looks up the same value (or
    the same absence) afterwards.
   */
  lemma {:induction false} EnsureAddsOnlyPath(obj: map<string, JsValue>, path: seq<string>, defVal: JsValue, q: seq<string>)
    requires |path| >= 1 && |q| >= 1
    requires !OnPath(q, path) && !OnPath(path, q)
    ensures Lookup(Ensure(obj, path, defVal).0, q) == Lookup(obj, q)
    decreases |path|
  {
    var r := Ensure(obj, path, defVal).0;
    var k := q[0];
    if k != path[0] {
      assert k in r <==> k in obj;
    } else {
      OnPathStep(q, path);
      OnPathStep(path, q);
      var child := if k in obj && obj[k].Obj? then obj[k].fields else map[];
      EnsureAddsOnlyPath(child, path[1..], defVal, q[1..]);
      assert r[k] == Obj(Ensure(child, path[1..], defVal).0);
    }
  }
}

=== FILE: store.dfy ===
/**
  The background worker's usage store: per-day per-domain milliseconds, the
  lifetime total per domain, and the set of domains whose overlay is hidden.
  The three maps live in `chrome.storage.local`; here they are one immutable
  value, and every operation returns the new value instead of writing it back.
 */
module UsageStore {
  import opened Domain
  import opened JsObject

  /** day key -> normalized domain -> milliseconds; stored nested as day, then `domains`, then domain, then `ms`. */
  type Usage = map<string, map<string, int>>

  datatype Store = Store(
    usageByDay: Usage,
    totalMsByDomain: map<string, int>,
    disabledDomains: set<string>)

  /** What the store holds before anything was written: every map read as empty. */
  const EmptyStore := Store(map[], map[], {})

  datatype IncrementResult = IncrementResult(day: string, todayMs: int, lifetimeMs: int)

  datatype Summary = Summary(day: string, todayMs: int, lifetimeMs: int, disabled: bool)

  /** The milliseconds recorded for `domain` on `day`, absent read as 0. */
  function DayMs(u: Usage, day: string, domain: string): int {
    if day in u then MsOr0(u[day], domain) else 0
  }

  /**
    The milliseconds stored under `domain`, an absent key read as 0: a lifetime
    total, or one day's cell.
   */
  function MsOr0(m: map<string, int>, domain: string): int {
    if domain in m then m[domain] else 0
  }

  /**
    The typed form of `ensure(usageByDay, [day, "domains", domain], { ms: 0 })`:
    the day level and the cell are created when missing, an existing cell is
    kept, and nothing else changes.
   */
  function EnsureCell(u: Usage, day: string, domain: string): (r: Usage)
    ensures day in r && domain in r[day]
    ensures r[day][domain] == DayMs(u, day, domain)
    ensures day in u && domain in u[day] ==> r == u
    ensures r.Keys == u.Keys + {day}
    ensures forall d :: d in u && d != day ==> r[d] == u[d]
    ensures r[day].Keys == (if day in u then u[day].Keys else {}) + {domain}
    ensures forall k :: day in u && k in u[day] ==> r[day][k] == u[day][k]
  {
    var cells := if day in u then u[day] else map[];
    if domain in cells then u else u[day := cells[domain := 0]]
  }

  /** The `{ ms: n }` record the source stores for one cell. */
  function Cell(n: int): JsValue {
    Obj(map["ms" := Num(n)])
  }

  function EncodeCells(cells: map<string, int>): map<string, JsValue> {
    map k | k in cells :: Cell(cells[k])
  }

  function EncodeDay(cells: map<string, int>): JsValue {
    Obj(map["domains" := Obj(EncodeCells(cells))])
  }

  /** The stored JSON shape of `usageByDay`. */
  function Encode(u: Usage): map<string, JsValue> {
    map d | d in u :: EncodeDay(u[d])
  }

  function WithCell(cells: map<string, int>, domain: string): map<string, int> {
    if domain in cells then cells else cells[domain := 0]
  }

  lemma EnsureLeafLevel(cells: map<string, int>, domain: string)
    ensures Ensure(EncodeCells(cells), [domain], Cell(0))
         == (EncodeCells(WithCell(cells, domain)), Cell(MsOr0(cells, domain)))
  {
    if domain !in cells {
      assert EncodeCells(cells)[domain := Cell(0)] == EncodeCells(cells[domain := 0]);
    }
  }

  /** The `"domains"` level, either present or (for a new day) an empty object. */
  lemma EnsureDayLevel(dayObj: map<string, JsValue>, cells: map<string, int>, domain: string)
    requires dayObj == EncodeDay(cells).fields || (cells == map[] && dayObj == map[])
    ensures Ensure(dayObj, ["domains", domain], Cell(0))
         == (EncodeDay(WithCell(cells, domain)).fields, Cell(MsOr0(cells, domain)))
  {
    var inner := if "domains" in dayObj && dayObj["domains"].Obj? then dayObj["domains"].fields else map[];
    assert inner == EncodeCells(cells);
    assert ["domains", domain][1..] == [domain];
    EnsureLeafLevel(cells, domain);
    var r := Ensure(dayObj, ["domains", domain], Cell(0));
    assert r == (dayObj["domains" := Obj(EncodeCells(WithCell(cells, domain)))], Cell(MsOr0(cells, domain)));
    assert dayObj.Keys <= {"domains"};
    assert dayObj["domains" := Obj(EncodeCells(WithCell(cells, domain)))] == EncodeDay(WithCell(cells, domain)).fields;
  }

  /**
    The typed EnsureCell is exactly the generic `ensure` run on the stored
    JSON shape with the path `[day, "domains", domain]` and default `{ ms: 0 }`.
   */
  lemma EnsureCellMatchesEnsure(u: Usage, day: string, domain: string)
    ensures Ensure(Encode(u), [day, "domains", domain], Cell(0))
         == (Encode(EnsureCell(u, day, domain)), Cell(DayMs(u, day, domain)))
  {
    var e := Encode(u);
    var path := [day, "domains", domain];
    var cells := if day in u then u[day] else map[];
    var dayObj: map<string, JsValue> := if day in e && e[day].Obj? then e[day].fields else map[];
    assert path[1..] == ["domains", domain];
    EnsureDayLevel(dayObj, cells, domain);
    var inner := Ensure(dayObj, path[1..], Cell(0));
    assert Ensure(e, path, Cell(0)) == (e[day := Obj(inner.0)], inner.1);
    assert EnsureCell(u, day, domain) == u[day := WithCell(cells, domain)];
    EncodeUpdate(u, day, WithCell(cells, domain));
  }

  lemma EncodeUpdate(u: Usage, day: string, cells: map<string, int>)
    ensures Encode(u[day := cells]) == Encode(u)[day := EncodeDay(cells)]
  {
  }

  /**
    `incrementTime(domainRaw, deltaMs)`: add `deltaMs` to today's cell of the
    normalized domain (creating it at 0) and to its lifetime total (absent read
    as 0); return both new values. No other cell, total or disabled flag changes.
   */
  function IncrementTime(s: Store, hostname: UrlHostname, day: string, domainRaw: string, deltaMs: int)
    : (r: (Store, IncrementResult))
    ensures var key := NormalizeDomain(domainRaw, hostname);
      && r.1.day == day
      && r.1.todayMs == DayMs(s.usageByDay, day, key) + deltaMs
      && r.1.lifetimeMs == MsOr0(s.totalMsByDomain, key) + deltaMs
      && day in r.0.usageByDay && key in r.0.usageByDay[day]
      && r.0.usageByDay[day][key] == r.1.todayMs
      && key in r.0.totalMsByDomain && r.0.totalMsByDomain[key] == r.1.lifetimeMs
    // frame: every other day, every other cell of this day, every other total
    ensures r.0.usageByDay.Keys == s.usageByDay.Keys + {day}
    ensures forall d :: d in s.usageByDay && d != day ==> r.0.usageByDay[d] == s.usageByDay[d]
    ensures var key := NormalizeDomain(domainRaw, hostname);
      && r.0.usageByDay[day].Keys == (if day in s.usageByDay then s.usageByDay[day].Keys else {}) + {key}
      && (forall k :: day in s.usageByDay && k in s.usageByDay[day] && k != key ==>
            r.0.usageByDay[day][k] == s.usageByDay[day][k])
      && r.0.totalMsByDomain.Keys == s.totalMsByDomain.Keys + {key}
      && (forall k :: k in s.totalMsByDomain && k != key ==> r.0.totalMsByDomain[k] == s.totalMsByDomain[k])
    ensures r.0.disabledDomains == s.disabledDomains
  {
    var domain := NormalizeDomain(domainRaw, hostname);
    var u := EnsureCell(s.usageByDay, day, domain);
    var u' := u[day := u[day][domain := u[day][domain] + deltaMs]];
    var totals' := s.totalMsByDomain[domain := MsOr0(s.totalMsByDomain, domain) + deltaMs];
    (Store(u', totals', s.disabledDomains), IncrementResult(day, u'[day][domain], totals'[domain]))
  }

  /**
    `getSummary(domainRaw)`: a pure read of today's cell, the lifetime total and
    the disabled flag of the normalized domain, each defaulting to 0 / false.
   */
  function GetSummary(s: Store, hostname: UrlHostname, day: string, domainRaw: string): (r: Summary)
    ensures var key := NormalizeDomain(domainRaw, hostname);
      && r.day == day
      && (day !in s.usageByDay || key !in s.usageByDay[day] ==> r.todayMs == 0)
      && (day in s.usageByDay && key in s.usageByDay[day] ==> r.todayMs == s.usageByDay[day][key])
      && (key !in s.totalMsByDomain ==> r.lifetimeMs == 0)
      && (key in s.totalMsByDomain ==> r.lifetimeMs == s.totalMsByDomain[key])
      && (r.disabled <==> key in s.disabledDomains)
  {
    SummaryOf(s, day, NormalizeDomain(domainRaw, hostname))
  }

  /** The summary of an already-normalized key. */
  function SummaryOf(s: Store, day: string, key: string): Summary {
    Summary(day, DayMs(s.usageByDay, day, key), MsOr0(s.totalMsByDomain, key), key in s.disabledDomains)
  }

  /**
    The toggle shared by the `toggleDomain` message and the toolbar button: the
    normalized domain's membership in `disabledDomains` flips, nothing else changes.
   */
  function ToggleKey(s: Store, key: string): (r: Store)
    ensures key in r.disabledDomains <==> key !in s.disabledDomains
    ensures forall k :: k != key ==> (k in r.disabledDomains <==> k in s.disabledDomains)
    ensures r.usageByDay == s.usageByDay && r.totalMsByDomain == s.totalMsByDomain
  {
    var disabled := if key in s.disabledDomains then s.disabledDomains - {key} else s.disabledDomains + {key};
    s.(disabledDomains := disabled)
  }

  function ToggleDomain(s: Store, hostname: UrlHostname, domainRaw: string): (r: Store)
    ensures var key := NormalizeDomain(domainRaw, hostname);
      && (key in r.disabledDomains <==> key !in s.disabledDomains)
      && (forall k :: k != key ==> (k in r.disabledDomains <==> k in s.disabledDomains))
      && r.usageByDay == s.usageByDay && r.totalMsByDomain == s.totalMsByDomain
  {
    ToggleKey(s, NormalizeDomain(domainRaw, hostname))
  }

  /** Toggling the same domain twice restores the store. */
  lemma ToggleTwiceRestores(s: Store, hostname: UrlHostname, domainRaw: string)
    ensures ToggleDomain(ToggleDomain(s, hostname, domainRaw), hostname, domainRaw) == s
  {
    var t := ToggleDomain(ToggleDomain(s, hostname, domainRaw), hostname, domainRaw);
    assert t.disabledDomains == s.disabledDomains;
  }

  /** The summary read right after an increment reports the values the increment returned. */
  lemma SummaryAfterIncrement(s: Store, hostname: UrlHostname, day: string, domainRaw: string, deltaMs: int)
    ensures var (s', res) := IncrementTime(s, hostname, day, domainRaw, deltaMs);
      var sum := GetSummary(s', hostname, day, domainRaw);
      sum.todayMs == res.todayMs && sum.lifetimeMs == res.lifetimeMs
      && sum.disabled == GetSummary(s, hostname, day, domainRaw).disabled
  {
  }

  /** An increment changes the summary of no other domain, on any day. */
  lemma IncrementLeavesOtherSummaries(s: Store, hostname: UrlHostname, day: string, domainRaw: string,
                                      deltaMs: int, otherDay: string, otherRaw: string)
    requires NormalizeDomain(otherRaw, hostname) != NormalizeDomain(domainRaw, hostname) || otherDay != day
    ensures var s' := IncrementTime(s, hostname, day, domainRaw, deltaMs).0;
      GetSummary(s', hostname, otherDay, otherRaw).todayMs == GetSummary(s, hostname, otherDay, otherRaw).todayMs
      && (NormalizeDomain(otherRaw, hostname) != NormalizeDomain(domainRaw, hostname) ==>
            GetSummary(s', hostname, otherDay, otherRaw) == GetSummary(s, hostname, otherDay, otherRaw))
  {
  }

  // ---------------------------------------------------------------------------
  // Lifetime total = sum over days

  /** The sum of `domain`'s cells over every day of `u`. */
  ghost function SumOverDays(u: Usage, domain: string): int
    decreases |u|
  {
    if u == map[] then 0
    else
      var d :| d in u;
      DayMs(u, d, domain) + SumOverDays(u - {d}, domain)
  }

  /** The invariant the store keeps: each lifetime total is the sum of that domain's days. */
  ghost predicate TotalsConsistent(s: Store) {
    forall domain :: MsOr0(s.totalMsByDomain, domain) == SumOverDays(s.usageByDay, domain)
  }

  lemma {:induction false} SumOverDaysRemove(u: Usage, x: string, domain: string)
    requires x in u
    ensures SumOverDays(u, domain) == DayMs(u, x, domain) + SumOverDays(u - {x}, domain)
    decreases |u|
  {
    var d :| d in u && SumOverDays(u, domain) == DayMs(u, d, domain) + SumOverDays(u - {d}, domain);
    if d != x {
      assert |u - {d}| < |u|;
      SumOverDaysRemove(u - {d}, x, domain);
      SumOverDaysRemove(u - {x}, d, domain);
      assert u - {d} - {x} == u - {x} - {d};
      assert DayMs(u - {d}, x, domain) == DayMs(u, x, domain);
      assert DayMs(u - {x}, d, domain) == DayMs(u, d, domain);
    }
  }

  /** Replacing (or adding) one day changes the sum by exactly that day's difference. */
  lemma SumAfterDayUpdate(u: Usage, day: string, cells: map<string, int>, domain: string)
    ensures SumOverDays(u[day := cells], domain)
         == SumOverDays(u, domain) - DayMs(u, day, domain) + DayMs(u[day := cells], day, domain)
  {
    var u' := u[day := cells];
    SumOverDaysRemove(u', day, domain);
    if day in u {
      SumOverDaysRemove(u, day, domain);
      assert u' - {day} == u - {day};
    } else {
      assert u' - {day} == u;
    }
  }

  /** An increment keeps every lifetime total equal to the sum of its domain's days. */
  lemma IncrementPreservesConsistency(s: Store, hostname: UrlHostname, day: string, domainRaw: string, deltaMs: int)
    requires TotalsConsistent(s)
    ensures TotalsConsistent(IncrementTime(s, hostname, day, domainRaw, deltaMs).0)
  {
    var s' := IncrementTime(s, hostname, day, domainRaw, deltaMs).0;
    var key := NormalizeDomain(domainRaw, hostname);
    forall domain
      ensures MsOr0(s'.totalMsByDomain, domain) == SumOverDays(s'.usageByDay, domain)
    {
      SumAfterDayUpdate(s.usageByDay, day, s'.usageByDay[day], domain);
      assert s'.usageByDay == s.usageByDay[day := s'.usageByDay[day]];
      assert MsOr0(s.totalMsByDomain, domain) == SumOverDays(s.usageByDay, domain);
    }
  }

  lemma EmptyStoreConsistent()
    ensures TotalsConsistent(EmptyStore)
  {
  }

  // ---------------------------------------------------------------------------
  // Sequences of increments

  /** One recorded delta: the day key at the time and the milliseconds. */
  datatype Event = Event(day: string, deltaMs: int)

  function SumDeltas(events: seq<Event>): int {
    if events == [] then 0 else SumDeltas(events[..|events| - 1]) + events[|events| - 1].deltaMs
  }

  /** The increment of each event, in order, each on its own day. */
  function RecordAll(s: Store, hostname: UrlHostname, domainRaw: string, events: seq<Event>): Store {
    if events == [] then s
    else
      var last := events[|events| - 1];
      IncrementTime(RecordAll(s, hostname, domainRaw, events[..|events| - 1]), hostname, last.day, domainRaw, last.deltaMs).0
  }

  /**
    After any sequence of increments for one domain, its lifetime total has
    grown by the sum of the deltas, and the totals still equal the day sums.
   */
  lemma {:induction false} RecordAllTotals(s: Store, hostname: UrlHostname, domainRaw: string, events: seq<Event>)
    requires TotalsConsistent(s)
    ensures var key := NormalizeDomain(domainRaw, hostname);
      var s' := RecordAll(s, hostname, domainRaw, events);
      && MsOr0(s'.totalMsByDomain, key) == MsOr0(s.totalMsByDomain, key) + SumDeltas(events)
      && TotalsConsistent(s')
  {
    if events != [] {
      var prefix := events[..|events| - 1];
      var last := events[|events| - 1];
      RecordAllTotals(s, hostname, domainRaw, prefix);
      IncrementPreservesConsistency(RecordAll(s, hostname, domainRaw, prefix), hostname, last.day, domainRaw, last.deltaMs);
    }
  }

  /** From an empty store, the lifetime total is the sum of the recorded deltas and of the days. */
  lemma FromEmptyLifetimeIsSumOfDeltas(hostname: UrlHostname, domainRaw: string, events: seq<Event>)
    ensures var key := NormalizeDomain(domainRaw, hostname);
      var s' := RecordAll(EmptyStore, hostname, domainRaw, events);
      && MsOr0(s'.totalMsByDomain, key) == SumDeltas(events)
      && SumOverDays(s'.usageByDay, key) == SumDeltas(events)
  {
    EmptyStoreConsistent();
    RecordAllTotals(EmptyStore, hostname, domainRaw, events);
  }

  /**
    3000 ms then 2000 ms for `example.com`, then 1000 ms for `www.Example.com`
    on the same day all land in the one `example.com` cell.
   */
  lemma SameDomainExample(hostname: UrlHostname, day: string)
    ensures var (s1, _) := IncrementTime(EmptyStore, hostname, day, "example.com", 3000);
      var (s2, r2) := IncrementTime(s1, hostname, day, "example.com", 2000);
      var (s3, r3) := IncrementTime(s2, hostname, day, "www.Example.com", 1000);
      && r2.todayMs == 5000 && r2.lifetimeMs == 5000
      && r3.todayMs == 6000 && r3.lifetimeMs == 6000
  {
    var key := "example.com";
    BackgroundNormalizeExamples(hostname);
    var (s1, r1) := IncrementTime(EmptyStore, hostname, day, key, 3000);
    assert r1.todayMs == 3000 && r1.lifetimeMs == 3000;
    var (s2, r2) := IncrementTime(s1, hostname, day, key, 2000);
    assert DayMs(s2.usageByDay, day, key) == 5000 && MsOr0(s2.totalMsByDomain, key) == 5000;
  }
}

=== FILE: tracker.dfy ===
/**
  The content script's per-tab time accounting. Once tracking starts, a timer
  fires every second; each tick advances the clock, drops time the page was
  hidden or unfocused, caps runaway gaps, adds the counted time to a local
  accumulator and to the displayed summary, and pushes the accumulator to the
  background worker once it reaches five seconds.
 */
module Tracker {
  import opened Wrappers
  import opened UsageStore

  /** Gaps longer than this are treated as a sleep/wake jump. */
  const RunawayMs := 5000
  /** What a runaway gap is counted as. */
  const CappedMs := 1000
  /** The accumulator is pushed once it reaches this many milliseconds. */
  const PushThresholdMs := 5000

  datatype TrackerState = TrackerState(
    lastTick: int,
    accumulatedMsSincePush: int,
    summary: Option<Summary>,
    trackingStarted: bool)

  /** The state when the script loads at `loadTime`. */
  function Initial(loadTime: int): TrackerState {
    TrackerState(loadTime, 0, None, false)
  }

  /** A gap longer than the runaway bound (a sleeping tab or a stalled timer) counts as one second. */
  function CapDelta(delta: int): (r: int)
    ensures r <= RunawayMs
    ensures delta <= RunawayMs ==> r == delta
    ensures delta > RunawayMs ==> r == CappedMs
  {
    if delta > RunawayMs then CappedMs else delta
  }

  /** The milliseconds a tick at `now` counts, given the previous tick time. */
  function Counted(lastTick: int, now: int, visible: bool): (r: int)
    ensures !visible ==> r == 0
    ensures r <= RunawayMs
  {
    if visible then CapDelta(now - lastTick) else 0
  }

  /**
    The optimistic update: both today's and the lifetime figure grow by the
    counted delta, and only when a summary is present.
   */
  function Optimistic(summary: Option<Summary>, delta: int): (r: Option<Summary>)
    ensures r.Some? <==> summary.Some?
    ensures r.Some? ==>
      && r.value.todayMs == summary.value.todayMs + delta
      && r.value.lifetimeMs == summary.value.lifetimeMs + delta
      && r.value.day == summary.value.day
      && r.value.disabled == summary.value.disabled
  {
    match summary
    case None => None
    case Some(sm) => Some(sm.(todayMs := sm.todayMs + delta, lifetimeMs := sm.lifetimeMs + delta))
  }

  /**
    One timer tick at time `now`; `visible` is "the document is visible and has
    focus". Returns the new state and the amount pushed to the background, if any.
   */
  function Step(st: TrackerState, now: int, visible: bool): (r: (TrackerState, Option<int>))
    ensures r.0.lastTick == now
    ensures r.0.trackingStarted == st.trackingStarted
    ensures !visible ==> r.0 == st.(lastTick := now) && r.1 == None
    ensures visible ==>
      var d := CapDelta(now - st.lastTick);
      && r.1.GetOr(0) + r.0.accumulatedMsSincePush == st.accumulatedMsSincePush + d
      && r.0.summary == Optimistic(st.summary, d)
    ensures r.1.Some? ==> r.1.value >= PushThresholdMs && r.0.accumulatedMsSincePush == 0
    ensures st.accumulatedMsSincePush < PushThresholdMs ==>
      && r.0.accumulatedMsSincePush < PushThresholdMs
      && (r.1.Some? ==> r.1.value < PushThresholdMs + RunawayMs)
  {
    var st1 := st.(lastTick := now);
    if !visible then (st1, None)
    else
      var d := CapDelta(now - st.lastTick);
      var acc := st.accumulatedMsSincePush + d;
      var st2 := st1.(summary := Optimistic(st.summary, d));
      if acc >= PushThresholdMs then (st2.(accumulatedMsSincePush := 0), Some(acc))
      else (st2.(accumulatedMsSincePush := acc), None)
  }

  /**
    The system clock stepping backwards while the page is visible yields a
    negative delta, which passes the cap and shrinks the accumulator.
   */
  lemma ClockBackwardsShrinksAccumulator(st: TrackerState, now: int)
    requires now < st.lastTick
    requires st.accumulatedMsSincePush < PushThresholdMs
    ensures var (st', pushed) := Step(st, now, true);
      pushed == None && st'.accumulatedMsSincePush == st.accumulatedMsSincePush + (now - st.lastTick)
  {
  }

  datatype Tick = Tick(now: int, visible: bool)

  function Sum(xs: seq<int>): int {
    if xs == [] then 0 else Sum(xs[..|xs| - 1]) + xs[|xs| - 1]
  }

  lemma SumAppend(xs: seq<int>, x: int)
    ensures Sum(xs + [x]) == Sum(xs) + x
  {
    assert (xs + [x])[..|xs|] == xs;
  }

  /** The time of the last tick in `ticks`, or `lastTick` when there is none. */
  function LastNow(lastTick: int, ticks: seq<Tick>): int {
    if ticks == [] then lastTick else ticks[|ticks| - 1].now
  }

  /**
    The reference total of counted time: each tick counts its capped gap from
    the tick before it (the first from `lastTick`), and nothing when hidden.
   */
  function CountedTotal(lastTick: int, ticks: seq<Tick>): int {
    if ticks == [] then 0
    else
      var prefix := ticks[..|ticks| - 1];
      var t := ticks[|ticks| - 1];
      CountedTotal(lastTick, prefix) + Counted(LastNow(lastTick, prefix), t.now, t.visible)
  }

  /** The state after a sequence of ticks, and the amounts pushed, in order. */
  function Run(st: TrackerState, ticks: seq<Tick>): (TrackerState, seq<int>) {
    if ticks == [] then (st, [])
    else
      var (mid, pushes) := Run(st, ticks[..|ticks| - 1]);
      var t := ticks[|ticks| - 1];
      var (st', pushed) := Step(mid, t.now, t.visible);
      (st', pushes + (if pushed.Some? then [pushed.value] else []))
  }

  /**
    Over any run, nothing is lost or invented: the pushes plus what is still
    accumulated equal the starting accumulator plus all counted time; the
    displayed summary grows by the same counted time; the clock ends at the last
    tick; and every push lies in [5000, 10000).
   */
  lemma {:induction false} RunAccounting(st: TrackerState, ticks: seq<Tick>)
    requires st.accumulatedMsSincePush < PushThresholdMs
    ensures var (st', pushes) := Run(st, ticks);
      && Sum(pushes) + st'.accumulatedMsSincePush == st.accumulatedMsSincePush + CountedTotal(st.lastTick, ticks)
      && st'.lastTick == LastNow(st.lastTick, ticks)
      && st'.accumulatedMsSincePush < PushThresholdMs
      && (forall i :: 0 <= i < |pushes| ==> PushThresholdMs <= pushes[i] < PushThresholdMs + RunawayMs)
      && (st'.summary.Some? <==> st.summary.Some?)
      && (st.summary.Some? ==>
            && st'.summary.value.todayMs == st.summary.value.todayMs + CountedTotal(st.lastTick, ticks)
            && st'.summary.value.lifetimeMs == st.summary.value.lifetimeMs + CountedTotal(st.lastTick, ticks))
  {
    if ticks != [] {
      var prefix := ticks[..|ticks| - 1];
      var t := ticks[|ticks| - 1];
      RunAccounting(st, prefix);
      var (mid, pushes) := Run(st, prefix);
      var (st', pushed) := Step(mid, t.now, t.visible);
      if pushed.Some? {
        SumAppend(pushes, pushed.value);
      } else {
        assert pushes + [] == pushes;
      }
    }
  }

  /**
    From the state at load time, the pushes plus what is still accumulated are
    exactly the counted time since load, and there is no summary to update.
   */
  lemma RunFromLoad(loadTime: int, ticks: seq<Tick>)
    ensures var (st', pushes) := Run(Initial(loadTime), ticks);
      && Sum(pushes) + st'.accumulatedMsSincePush == CountedTotal(loadTime, ticks)
      && st'.accumulatedMsSincePush < PushThresholdMs
      && st'.summary.None?
  {
    RunAccounting(Initial(loadTime), ticks);
  }

  /**
    `startTracking`: the first call installs the timer and sets the flag; any
    later call does nothing. Returns whether a timer was installed.
   */
  function StartTracking(st: TrackerState): (r: (TrackerState, bool))
    ensures r.0.trackingStarted
    ensures r.1 <==> !st.trackingStarted
    ensures r.0.(trackingStarted := st.trackingStarted) == st
  {
    if st.trackingStarted then (st, false) else (st.(trackingStarted := true), true)
  }

  lemma StartTrackingIdempotent(st: TrackerState)
    ensures var (st1, _) := StartTracking(st);
      StartTracking(st1) == (st1, false)
  {
  }

  /** A reply replaces the summary; a failed request keeps the one already held. */
  function AdoptSummary(st: TrackerState, reply: Option<Summary>): (r: TrackerState)
    ensures reply.Some? ==> r.summary == reply
    ensures reply.None? ==> r == st
    ensures r.(summary := st.summary) == st
  {
    if reply.Some? then st.(summary := reply) else st
  }

  /** Tracking is allowed unless a summary is held and says the domain is disabled. */
  predicate NotDisabled(summary: Option<Summary>) {
    summary.None? || !summary.value.disabled
  }

  /**
    `init`: the first getSummary reply (None when it failed) becomes the summary,
    and tracking starts unless that summary says the domain is disabled.
   */
  function Init(st: TrackerState, reply: Option<Summary>): (r: (TrackerState, bool))
    ensures r.0.summary == reply
    ensures r.0.trackingStarted <==> st.trackingStarted || NotDisabled(reply)
    ensures r.1 <==> !st.trackingStarted && NotDisabled(reply)
    ensures r.0.lastTick == st.lastTick && r.0.accumulatedMsSincePush == st.accumulatedMsSincePush
  {
    var st1 := st.(summary := reply);
    if NotDisabled(reply) then StartTracking(st1) else (st1, false)
  }

  /**
    The outcome of the summary request made on an `overlayVisibilityChanged`
    notice: the request failed (and the failure is swallowed), or a reply came
    back, carrying a summary or not.
   */
  datatype Refresh = Failed | Replied(summary: Option<Summary>)

  /**
    The `overlayVisibilityChanged` notice: a failed refresh does nothing; a reply
    is adopted (an empty one keeps the held summary) and tracking starts if the
    domain is not disabled. Tracking is never stopped.
   */
  function OnVisibilityChanged(st: TrackerState, refresh: Refresh): (r: (TrackerState, bool))
    ensures refresh.Failed? ==> r == (st, false)
    ensures refresh.Replied? ==>
      && r.0.summary == (if refresh.summary.Some? then refresh.summary else st.summary)
      && (r.1 <==> !st.trackingStarted && NotDisabled(r.0.summary))
      && (r.0.trackingStarted <==> st.trackingStarted || NotDisabled(r.0.summary))
    ensures st.trackingStarted ==> r.0.trackingStarted && !r.1
    ensures r.0.lastTick == st.lastTick && r.0.accumulatedMsSincePush == st.accumulatedMsSincePush
  {
    match refresh
    case Failed => (st, false)
    case Replied(reply) =>
      var st1 := AdoptSummary(st, reply);
      if NotDisabled(st1.summary) then StartTracking(st1) else (st1, false)
  }

  /** What reaches the content script while it waits: init's reply, or a refresh after a toolbar notice. */
  datatype Notice = InitReply(reply: Option<Summary>) | VisibilityNotice(refresh: Refresh)

  /** The tracking state after a sequence of notices, in arrival order. */
  function Listen(st: TrackerState, notices: seq<Notice>): TrackerState
    decreases |notices|
  {
    if notices == [] then st
    else
      var st1 := match notices[0]
        case InitReply(reply) => Init(st, reply).0
        case VisibilityNotice(refresh) => OnVisibilityChanged(st, refresh).0;
      Listen(st1, notices[1..])
  }

  /** The notice reports the domain as disabled, or is a refresh that failed. */
  predicate SaysDisabled(n: Notice) {
    match n
    case InitReply(reply) => reply.Some? && reply.value.disabled
    case VisibilityNotice(refresh) =>
      refresh.Failed? || (refresh.summary.Some? && refresh.summary.value.disabled)
  }

  /**
    A domain every reply reports as disabled is never tracked, whatever order
    init's reply, toolbar refreshes and failed refreshes arrive in.
   */
  lemma {:induction false} DisabledDomainNeverTracks(st: TrackerState, notices: seq<Notice>)
    requires !st.trackingStarted
    requires forall i :: 0 <= i < |notices| ==> SaysDisabled(notices[i])
    ensures !Listen(st, notices).trackingStarted
    decreases |notices|
  {
    if notices != [] {
      assert SaysDisabled(notices[0]);
      var st1 := match notices[0]
        case InitReply(reply) => Init(st, reply).0
        case VisibilityNotice(refresh) => OnVisibilityChanged(st, refresh).0;
      assert !st1.trackingStarted;
      assert forall i :: 0 <= i < |notices[1..]| ==> SaysDisabled(notices[1..][i]) by {
        forall i | 0 <= i < |notices[1..]| ensures SaysDisabled(notices[1..][i]) {
          assert notices[1..][i] == notices[i + 1];
        }
      }
      DisabledDomainNeverTracks(st1, notices[1..]);
    }
  }

  /** Once tracking has started, no later notice stops it. */
  lemma {:induction false} TrackingNeverStops(st: TrackerState, notices: seq<Notice>)
    requires st.trackingStarted
    ensures Listen(st, notices).trackingStarted
    decreases |notices|
  {
    if notices != [] {
      var st1 := match notices[0]
        case InitReply(reply) => Init(st, reply).0
        case VisibilityNotice(refresh) => OnVisibilityChanged(st, refresh).0;
      TrackingNeverStops(st1, notices[1..]);
    }
  }
}

=== FILE: wrappers.dfy ===
/** Optional values: the model's stand-in for JavaScript's `undefined` / `null`. */
module Wrappers {

  datatype Option<+T> = None | Some(value: T) {

    /** The value, or `default` when absent. */
    function GetOr(default: T): T {
      match this
      case Some(v) => v
      case None => default
    }
  }
}
